=== FILE: README.md ===
# Creative upload widget: particle store and session state machine

This project models the logic inside `js/demo.js` of the creative-upload demo. That file is a drag-and-drop upload widget: an icon bobs and emits particles, and when files are dropped, particle trails travel to the icon and the icon launches away. The model has two parts.

- **Particle store** (`particles.dfy`, `emitter.dfy`, `drop.dfy`). This covers `createParticle`, `updateParticles`, `addIconParticles`, `initIconParticles` and `addParticlesOnDrop`, over an immutable `seq<Particle>`. `updateParticles` removes a dead particle with `splice` inside a `for` loop that still does `i++`. So the particle that moves into the freed slot is not looked at in that pass. `Particles.Process` reproduces that loop index by index. `Particles.Walk` describes the same pass over the original array, and `Particles.ProcessIsWalk` proves the two agree.
- **Session** (`widget.dfy`). The variables `animatingUpload`, `playingIconAnimation`, `iconParticlesCount` and `particles` become fields of one `Session` record, together with:
  - the `upload--active` class;
  - which tween `iconAnimation` currently refers to;
  - the state of the launch tween;
  - the travel tweens and hide timeouts that have not fired yet.

  Every DOM event handler, animation frame, tween callback and timer is an `Event`, and `Widget.Step` applies it as a pure transition. `Widget.Supplied` says when an event can be delivered, for example only while a travel tween with that index is pending.

`Math.random()` values are inputs of type `Random.Unit` (reals in [0, 1)). Each created particle takes one draw record (`Emitter.IconDraw`, `Drop.SprayDraw`). A `requires` such as `|draws| == rate` asks the caller for exactly as many draw records as the code makes particles. The icon's bounding box (`Emitter.Rect`) and a travel tween's current point are inputs as well. Positions, velocities and lifespans are `real`.

Three behaviours of `js/demo.js` that a reader may not expect:
- Every travel tween's `complete` is `uploadIconAnimation` (js/demo.js:153). So every completed travel adds 2 to `iconParticlesCount` and restarts the launch tween, not only the last one.
- `updateParticles` does not examine every particle. A dead particle right after a removed one survives the pass (`Particles.DeadParticleCanSurvive`), so a particle is not guaranteed to be gone after `death + 1` updates. What does hold is that no stored particle is more than one frame past its lifespan (`Particles.UpdateKeepsAged`, `Widget.Inv`).
- `resetAll` does not cancel pending travel tweens or the hide timeout. They stay pending in the model and can fire after a reset. `resetAll` pauses through `iconAnimation`, and after an `uploadIconAnimation` that handle is the launch tween. So a reset while playing pauses the launch and then drops the handle.

## Model

| member | source | states |
|---|---|---|
| `Random.Rand` | js/demo.js:267-269 | `rand(v)` lies within `v/2` of zero on either side |
| `Particles.DefaultSize` | js/demo.js:26 | the default size `floor(random*2 + 1)` is 1 or 2 |
| `Particles.CreateParticle` | js/demo.js:17-28 | appends exactly one particle at the end and keeps the earlier ones. The new particle has `life = 0` and the given position and velocity. A supplied `death`/`size` is used only when truthy (present and non-zero); otherwise `death` lies in [0, 200) and `size` is 1 or 2 |
| `Particles.UpdateParticles` | js/demo.js:54-64 | the result is the input with some particles dropped and the rest kept in order. Each kept particle is untouched or advanced one frame. Only dead particles (`life > death`) are dropped and only live ones advanced. The length never grows |
| `Particles.ProcessIsWalk` | js/demo.js:55-63 | the splice-in-loop pass, started at any index, leaves the prefix alone and equals the one-pass structural walk of the rest. The walk removes an examined dead particle, advances an examined live one, and keeps the particle after a removal unexamined |
| `Particles.UpdateIsWalk` | js/demo.js:54-64 | `updateParticles` equals that structural walk over the whole array |
| `Particles.UpdateEmpty` | js/demo.js:55 | on an empty store the pass is a no-op |
| `Particles.UpdateAllLive` | js/demo.js:58-62 | with no dead particle, every particle gets `x += vx`, `y += vy`, `life += 1` and none is removed |
| `Particles.SuccessorOfRemovedIsSkipped` | js/demo.js:55-57 | when the first particle is dead, it is removed, the second particle survives unchanged, and the pass resumes with the third |
| `Particles.DeadParticleCanSurvive` | js/demo.js:55-57 | of two dead particles, the second one is still present and still dead after a pass |
| `Particles.UpdateKeepsAged` | js/demo.js:56-61 | if no particle is more than one frame past its lifespan before a pass, none is after it |
| `Particles.UpdateKeepsLiveLast` | js/demo.js:55-62 | a store whose last particle is not dead is non-empty after a pass |
| `Particles.ExtendAged` | js/demo.js:24-25 | appending fresh particles with a non-negative lifespan keeps every particle within a frame of its lifespan |
| `Emitter.CreateIconParticle` | js/demo.js:44-49 | an icon particle is fresh, vertically centred on the icon, within `(width-10)/2` of its horizontal centre, has `vx = 0`, falls at a speed in [0, 2·rate), and has default lifespan and size |
| `Emitter.AddIconParticles` | js/demo.js:39-51 | appends exactly `iconParticlesCount` particles of that shape and leaves existing particles untouched |
| `Emitter.RoundKeepsAged` | js/demo.js:79-80 | one add-then-update round keeps every particle within a frame of its lifespan |
| `Emitter.RoundNonEmpty` | js/demo.js:79-80 | after a round that emits at least one particle, the store is non-empty |
| `Emitter.InitIconParticles` | js/demo.js:76-82 | with at least one particle per round the 100 rounds leave the store non-empty; on an aged store they add at most `100·rate` particles and keep it aged |
| `Emitter.SeedBounds` | js/demo.js:76-82 | each add-then-update round grows the store by at most `rate` and keeps it aged |
| `Emitter.SeedNonEmpty` | js/demo.js:76-82 | after at least one round with `rate >= 1`, the store is non-empty |
| `Drop.AnimatedFiles` | js/demo.js:231 | the animated file count is the file count clamped to at most 3 |
| `Drop.AddParticlesOnDrop` | js/demo.js:118-155 | the undelayed call appends exactly 20 burst particles and a delayed call appends none. Each burst particle lies within 15px of the point, moves at most 1px per frame on each axis and lives 60 frames. The scheduled travel starts at the point after the given delay |
| `Drop.TrailParticles` | js/demo.js:140-152 | a travel tick appends exactly 10 such particles around the tween's current point |
| `Drop.Stagger` | js/demo.js:237-240 | `n` travels are appended for slots `n-1` down to 0. Slot `k` waits `200·k` ms and starts within 50px of the drop point. The last one scheduled (slot 0) starts exactly at it. Exactly 20 particles are appended, all around the drop point |
| `Widget.Initial` | js/demo.js:10-13 | at load the widget is hidden, idle and not playing, with a rate of 1, no launch, travel or timeout pending, and a store that is exactly the result of the 100 pre-seed rounds on an empty store (non-empty and aged) |
| `Widget.Play` | js/demo.js:100-106 | changes state only when not playing and leaves playing set. A launch tween paused behind the handle resumes, and that is the only way the launch state can change |
| `Widget.Pause` | js/demo.js:109-115 | changes state only when playing and leaves playing cleared. A running launch tween behind the handle is paused, and that is the only way the launch state can change |
| `Widget.PlayPauseIdempotent` | js/demo.js:100-115 | calling play or pause twice is the same as calling it once |
| `Widget.PlayPauseRoundTrip` | js/demo.js:100-115 | pause undoes play and play undoes pause, unless the launch tween behind the handle was running while paused, or paused while playing |
| `Widget.DragShowHandler` | js/demo.js:208-215 | ignored while an upload animates; otherwise shows the widget and plays, changing nothing but the class, the play state and the launch tween behind the handle, which can only go from paused to running |
| `Widget.DragHideHandler` | js/demo.js:218-225 | ignored while an upload animates; otherwise hides the widget and pauses, changing nothing but the class, the play state and the launch tween behind the handle, which can only go from running to paused |
| `Widget.DropHandler` | js/demo.js:228-256 | ignored while an upload animates. With no files it hides and pauses: `animatingUpload` stays false and nothing but the class, the play state and the launch tween behind the handle changes, that launch being paused if it was running while playing and otherwise left as it was. Otherwise it sets `animatingUpload` and appends `min(n, 3)` travels with delays `200·k`. Only the last travel has zero delay and starts at the exact drop point. It adds exactly 20 particles and a `1500 + 150·min(n, 3)` hide timeout, and leaves the rate unchanged |
| `Widget.FrameHandler` | js/demo.js:31-36 | one frame appends `iconParticlesCount` icon particles and runs the update pass over the result: the new store is that extended store with only dead particles dropped and only live ones advanced, in order. It grows by at most the current rate, and nothing else changes |
| `Widget.TrailHandler` | js/demo.js:140-152 | a travel tick appends exactly 10 particles, each within 15px of the tween's current point, moving at most 1px per frame on each axis and living 60 frames, and changes nothing else |
| `Widget.UploadIconAnimation` | js/demo.js:158-179 | adds 2 to the rate, makes the launch tween the handle and starts it, and changes nothing else |
| `Widget.TravelDoneHandler` | js/demo.js:153 | every completed travel, not only the last, removes that travel, adds 2 to the rate, makes the launch tween the handle and starts it, and changes nothing else |
| `Widget.ResetAll` | js/demo.js:182-197 | after a reset nothing animates or plays and the rate is 1. The store equals 100 add-then-update rounds applied to the empty store and holds between 1 and 100 particles. A launch tween survives only if it was not paused through the handle. Pending travels, hide timeouts and the active class are left as they were |
| `Widget.ResetRestoresInitial` | js/demo.js:182-197 | a reset of the load state with the load-time draws gives back the load state |
| `Widget.ResetIdempotent` | js/demo.js:182-197 | with the same random inputs, resetting twice equals resetting once |
| `Widget.LaunchDoneHandler` | js/demo.js:174-177 | launch completion resets the session: nothing animates or plays, the rate is 1, the store is re-seeded by 100 add-then-update rounds, the handle is the bob tween, no launch is pending, and pending travels, hide timeouts and the active class are kept |
| `Widget.HideDoneHandler` | js/demo.js:243-245 | a hide timeout clears the active class and is consumed |
| `Widget.ResizeHandler` | js/demo.js:259-264 | a resize always hides the widget and resets it |
| `Widget.Step` | js/demo.js:200-264 | a completed travel adds 2 to the rate, a reset sets it to 1, and every other event leaves it unchanged. While an upload animates, drag and drop events change nothing |
| `Widget.ResetInv` | js/demo.js:182-197 | a reset establishes the session invariant |
| `Widget.InitialInv` | js/demo.js:10-13 | the load state satisfies the session invariant |
| `Widget.FrameKeepsInv` | js/demo.js:31-36 | a frame keeps the invariant: the fresh icon particles and the update pass leave every particle within a frame of its lifespan |
| `Widget.DropKeepsInv` | js/demo.js:228-256 | a drop keeps the invariant: it appends only fresh 60-frame particles, and in the zero-file case it changes the launch state only by pausing |
| `Widget.TrailKeepsInv` | js/demo.js:140-152 | a travel tick keeps the invariant: it appends only fresh 60-frame particles |
| `Widget.StepKeepsInv` | js/demo.js:10-13 | every event preserves the invariant: the rate is odd, every particle is within a frame of its lifespan, and a paused launch is the tween behind the handle while not playing |
| `Widget.RunKeepsInv` | js/demo.js:10-13 | the invariant holds after any run of deliverable events |
| `Widget.RunCounter` | js/demo.js:153-159 | between resets, the rate grows by exactly 2 per completed travel |
| `Widget.CompleteTravels` | js/demo.js:153-159 | completing `m` consecutive pending travels can always be delivered, removes exactly those travels and adds `2·m` to the rate |
| `Widget.DropRaisesCounter` | js/demo.js:231-240 | on an idle widget, dropping files and letting every travel of that drop complete raises the rate by 2 per animated file (at most 3). No travel of that drop is left pending |
| `Widget.IgnoredWhileAnimating` | js/demo.js:208-256 | while an upload animates, any run of drag and drop events leaves the whole session unchanged, particles and rate included |

## Left out

- Canvas rendering (`renderParticles`, js/demo.js:67-73): it only draws. The alpha `1 - life/death` is not modelled. A particle can be drawn with negative alpha one frame after `life` passes `death`.
- `Math.random` and `rand`: their values are inputs (`Random.Unit`). Floating-point rounding, NaN and infinities are not modelled, so a NaN `death` or `size` (also falsy in JavaScript) is not covered.
- The tweening library: easing, durations, the bob tween's descriptor, `anime.remove` on other targets, and the interpolated positions of travel tweens are not modelled. A travel tick's current point is an input. What is kept: the travel tweens' start points and delays, their completion, the launch tween's running/paused state, and which tween `iconAnimation` refers to.
- Widget.LaunchDoneHandler: the `setTimeout(resetAll, 0)` between the launch tween's completion and the reset is collapsed into one event, so no other event can fall between them.
- DOM plumbing: element queries, `getBoundingClientRect` (an input), `classList` beyond the one active flag, the `preventDefault` listeners (js/demo.js:200-205), canvas width and height, and `requestAnimationFrame`/`setTimeout` scheduling. A scheduled frame is represented by `playing`; a frame event is deliverable only then.
- The ordering of frame, timer and tween callbacks: events are delivered one at a time, in any order the environment chooses.
- The file upload to a server, which the code leaves unimplemented (js/demo.js:247-249), and the dropped files' contents: only their count is used.

=== FILE: drop.dfy ===
/**
 * The drop orchestration of js/demo.js: `addParticlesOnDrop` and the stagger
 * loop of the `drop` handler. The travel tween each call starts is kept only
 * as data (where it starts and how long it waits); its easing and duration
 * belong to the tweening library.
 */
module Drop {
  import opened Wrappers
  import opened Random
  import opened Particles

  /** At most this many dropped files get their own animation (js/demo.js:231). */
  const MaxAnimatedFiles: nat := 3
  /** Particles sprayed at the drop point by the undelayed slot (js/demo.js:120). */
  const BurstSize: nat := 20
  /** Particles sprayed on every update tick of a travel tween (js/demo.js:142). */
  const TrailSize: nat := 10
  /** Milliseconds between the starts of two consecutive slots (js/demo.js:239). */
  const StaggerStep: nat := 200
  /** Lifespan of sprayed particles (js/demo.js:127, 149). */
  const SprayDeath: real := 60.0
  /** `rand(100)` offset of a delayed slot's start point (js/demo.js:239). */
  const SlotJitter: real := 100.0
  /** `rand(30)` offset of a sprayed particle (js/demo.js:123-124). */
  const SprayJitter: real := 30.0
  /** `rand(2)` velocity of a sprayed particle (js/demo.js:125-126). */
  const SpraySpeed: real := 2.0
  /** The hide timeout is `HideBase + filesCount * HidePerFile` ms (js/demo.js:245). */
  const HideBase: nat := 1500
  const HidePerFile: nat := 150

  /** A scheduled travel tween: the point it starts from and its start delay in ms. */
  datatype Travel = Travel(x: real, y: real, delay: nat)

  /** The `Math.random()` values used for one sprayed particle. */
  datatype SprayDraw = SprayDraw(dx: Unit, dy: Unit, vx: Unit, vy: Unit, size: Unit)

  /** The two `rand(100)` values offsetting a delayed slot. */
  datatype Jitter = Jitter(dx: Unit, dy: Unit)

  /** `droppedFiles.length > 3 ? 3 : droppedFiles.length`. */
  function AnimatedFiles(length: nat): (n: nat)
    ensures n <= MaxAnimatedFiles
    ensures n == length <==> length <= MaxAnimatedFiles
    ensures length > MaxAnimatedFiles ==> n == MaxAnimatedFiles
  {
    if length > MaxAnimatedFiles then MaxAnimatedFiles else length
  }

  /** `var i = delay ? 0 : 20`: only the undelayed slot bursts. */
  function BurstCount(delay: nat): nat {
    if delay != 0 then 0 else BurstSize
  }

  function HideDelay(n: nat): nat {
    HideBase + n * HidePerFile
  }

  /**
   * The options built at js/demo.js:122-128 and 144-150. `death` is the
   * truthy 60, so the fallback lifespan draw is never taken.
   */
  function SprayOptions(x: real, y: real, d: SprayDraw): Options {
    Options(x + Rand(d.dx, SprayJitter), y + Rand(d.dy, SprayJitter),
            Rand(d.vx, SpraySpeed), Rand(d.vy, SpraySpeed), Some(SprayDeath), None)
  }

  /** A sprayed particle: fresh, within 15px of the point, slow, living 60 frames. */
  ghost predicate SprayParticle(p: Particle, x: real, y: real) {
    && p.life == 0
    && -SprayJitter / 2.0 <= p.x - x <= SprayJitter / 2.0
    && -SprayJitter / 2.0 <= p.y - y <= SprayJitter / 2.0
    && -SpraySpeed / 2.0 <= p.vx <= SpraySpeed / 2.0
    && -SpraySpeed / 2.0 <= p.vy <= SpraySpeed / 2.0
    && p.death == SprayDeath
    && (p.size == 1.0 || p.size == 2.0)
  }

  /** One `createParticle` per draw around `(x, y)`. */
  function Spray(s: seq<Particle>, x: real, y: real, draws: seq<SprayDraw>): (r: seq<Particle>)
    ensures |r| == |s| + |draws| && r[..|s|] == s
    ensures forall k :: |s| <= k < |r| ==> SprayParticle(r[k], x, y)
    decreases |draws|
  {
    if |draws| == 0 then s
    else
      var s' := CreateParticle(s, SprayOptions(x, y, draws[0]), Fallback(0.0, draws[0].size));
      var r := Spray(s', x, y, draws[1..]);
      assert r[|s|] == r[..|s'|][|s|] == s'[|s|];
      assert r[..|s|] == r[..|s'|][..|s|];
      r
  }

  /**
   * `addParticlesOnDrop(x, y, delay)` (js/demo.js:118-155): the immediate
   * burst, and the travel tween it schedules from `(x, y)`.
   */
  function AddParticlesOnDrop(s: seq<Particle>, x: real, y: real, delay: nat, burst: seq<SprayDraw>): (r: (seq<Particle>, Travel))
    requires |burst| == BurstCount(delay)
    ensures |r.0| == |s| + (if delay == 0 then BurstSize else 0) && r.0[..|s|] == s
    ensures forall k :: |s| <= k < |r.0| ==> SprayParticle(r.0[k], x, y)
    ensures r.1.x == x && r.1.y == y && r.1.delay == delay
  {
    (Spray(s, x, y, burst), Travel(x, y, delay))
  }

  /** The particles sprayed by one tick of a travel tween's `run` callback (js/demo.js:140-152). */
  function TrailParticles(s: seq<Particle>, x: real, y: real, draws: seq<SprayDraw>): (r: seq<Particle>)
    requires |draws| == TrailSize
    ensures |r| == |s| + TrailSize && r[..|s|] == s
    ensures forall k :: |s| <= k < |r| ==> SprayParticle(r[k], x, y)
  {
    Spray(s, x, y, draws)
  }

  /** A travel starting within `SlotJitter / 2` of the drop point. */
  ghost predicate NearDrop(t: Travel, x: real, y: real) {
    -SlotJitter / 2.0 <= t.x - x <= SlotJitter / 2.0 && -SlotJitter / 2.0 <= t.y - y <= SlotJitter / 2.0
  }

  /**
   * The `while (i--)` loop of the drop handler (js/demo.js:237-240) over
   * slots `i - 1` down to 0. Slot `k` starts after `200 * k` ms, from the
   * drop point jittered by `rand(100)` unless `k` is 0; only slot 0, the
   * last one scheduled, bursts, and it bursts at the exact drop point.
   */
  function Stagger(p: seq<Particle>, t: seq<Travel>, x: real, y: real, i: nat,
                   jitter: seq<Jitter>, burst: seq<SprayDraw>): (r: (seq<Particle>, seq<Travel>))
    requires i <= |jitter| && |burst| == BurstSize
    ensures |r.1| == |t| + i && r.1[..|t|] == t
    ensures forall k :: |t| <= k < |r.1| ==> r.1[k].delay == StaggerStep * (|t| + i - 1 - k)
    ensures forall k :: |t| <= k < |r.1| ==> NearDrop(r.1[k], x, y)
    ensures i > 0 ==> r.1[|t| + i - 1].x == x && r.1[|t| + i - 1].y == y
    ensures |r.0| == |p| + (if i > 0 then BurstSize else 0) && r.0[..|p|] == p
    ensures forall k :: |p| <= k < |r.0| ==> SprayParticle(r.0[k], x, y)
    decreases i
  {
    if i == 0 then (p, t)
    else
      var slot := i - 1;
      var dx := if slot != 0 then Rand(jitter[slot].dx, SlotJitter) else 0.0;
      var dy := if slot != 0 then Rand(jitter[slot].dy, SlotJitter) else 0.0;
      var step := AddParticlesOnDrop(p, x + dx, y + dy, StaggerStep * slot, if slot == 0 then burst else []);
      var r := Stagger(step.0, t + [step.1], x, y, slot, jitter, burst);
      assert r.1[|t|] == r.1[..|t| + 1][|t|] == step.1;
      assert r.1[..|t|] == r.1[..|t| + 1][..|t|];
      assert r.0[..|p|] == r.0[..|step.0|][..|p|];
      r
  }

}

=== FILE: emitter.dfy ===
/**
 * The icon emitter of js/demo.js: `addIconParticles`, which drops
 * `iconParticlesCount` particles along the icon every frame, and
 * `initIconParticles`, which pre-runs 100 emit-then-update rounds so the
 * store does not start out empty. The icon's bounding box is an input.
 */
module Emitter {
  import opened Wrappers
  import opened Random
  import opened Particles

  /** `uploadIcon.getBoundingClientRect()`, reduced to the fields that are read. */
  datatype Rect = Rect(left: real, top: real, width: real, height: real)

  /** The `Math.random()` values used for one icon particle. */
  datatype IconDraw = IconDraw(jitter: Unit, speed: Unit, fallback: Fallback)

  /** `initIconParticles` runs this many rounds (js/demo.js:77). */
  const InitialRounds: nat := 100

  function CenterX(rect: Rect): real {
    rect.left + rect.width / 2.0
  }

  function CenterY(rect: Rect): real {
    rect.top + rect.height / 2.0
  }

  /** The options built at js/demo.js:44-49; no `death` or `size`, so both default. */
  function IconOptions(rect: Rect, rate: nat, d: IconDraw): Options {
    Options(CenterX(rect) + Rand(d.jitter, rect.width - 10.0), CenterY(rect),
            0.0, d.speed * 2.0 * rate as real, None, None)
  }

  /**
   * What every particle emitted at the icon looks like: fresh, centred
   * vertically on the icon and spread along its width, not moving
   * sideways, falling at a speed in [0, 2 * rate), with default lifespan
   * and size.
   */
  ghost predicate IconParticle(p: Particle, rect: Rect, rate: nat) {
    && p.life == 0
    && p.y == CenterY(rect)
    && -Abs(rect.width - 10.0) / 2.0 <= p.x - CenterX(rect) <= Abs(rect.width - 10.0) / 2.0
    && p.vx == 0.0
    && 0.0 <= p.vy
    && (rate > 0 ==> p.vy < 2.0 * rate as real)
    && 0.0 <= p.death < DefaultDeathSpan
    && (p.size == 1.0 || p.size == 2.0)
  }

  lemma SpeedBound(u: Unit, rate: nat)
    ensures 0.0 <= u * 2.0 * rate as real
    ensures rate > 0 ==> u * 2.0 * rate as real < 2.0 * rate as real
  {
  }

  /** A particle created from `IconOptions` has the icon-particle shape. */
  lemma CreateIconParticle(s: seq<Particle>, rect: Rect, rate: nat, d: IconDraw)
    ensures IconParticle(CreateParticle(s, IconOptions(rect, rate, d), d.fallback)[|s|], rect, rate)
  {
    var r := CreateParticle(s, IconOptions(rect, rate, d), d.fallback);
    SpeedBound(d.speed, rate);
    assert r[|s|].vy == d.speed * 2.0 * rate as real;
  }

  /** The body of the `while (i--)` loop, once per draw. */
  function Emit(s: seq<Particle>, rect: Rect, rate: nat, draws: seq<IconDraw>): (r: seq<Particle>)
    ensures |r| == |s| + |draws| && r[..|s|] == s
    ensures forall k :: |s| <= k < |r| ==> IconParticle(r[k], rect, rate)
    decreases |draws|
  {
    if |draws| == 0 then s
    else
      var s' := CreateParticle(s, IconOptions(rect, rate, draws[0]), draws[0].fallback);
      CreateIconParticle(s, rect, rate, draws[0]);
      var r := Emit(s', rect, rate, draws[1..]);
      assert r[|s|] == r[..|s'|][|s|] == s'[|s|];
      assert r[..|s|] == r[..|s'|][..|s|];
      r
  }

  /**
   * `addIconParticles()` (js/demo.js:39-51): exactly `rate` new particles at
   * the end, the existing ones untouched.
   */
  function AddIconParticles(s: seq<Particle>, rate: nat, rect: Rect, draws: seq<IconDraw>): (r: seq<Particle>)
    requires |draws| == rate
    ensures |r| == |s| + rate && r[..|s|] == s
    ensures forall k :: |s| <= k < |r| ==> IconParticle(r[k], rect, rate)
  {
    Emit(s, rect, rate, draws)
  }

  /** Each round of pre-seeding supplies one draw per emitted particle. */
  predicate RoundsFit(rounds: seq<seq<IconDraw>>, rate: nat) {
    forall k :: 0 <= k < |rounds| ==> |rounds[k]| == rate
  }

  /** Emit-then-update, once per round (the body of js/demo.js:78-81). */
  function Seed(s: seq<Particle>, rate: nat, rect: Rect, rounds: seq<seq<IconDraw>>): seq<Particle>
    requires RoundsFit(rounds, rate)
    decreases |rounds|
  {
    if |rounds| == 0 then s
    else Seed(UpdateParticles(AddIconParticles(s, rate, rect, rounds[0])), rate, rect, rounds[1..])
  }


  lemma EmittedAreAged(s: seq<Particle>, rate: nat, rect: Rect, draws: seq<IconDraw>)
    requires |draws| == rate && AgedWithin(s)
    ensures AgedWithin(AddIconParticles(s, rate, rect, draws))
  {
  }

  lemma RoundsFitTail(rounds: seq<seq<IconDraw>>, rate: nat)
    requires |rounds| > 0 && RoundsFit(rounds, rate)
    ensures RoundsFit(rounds[1..], rate)
  {
  }

  /** One emit-then-update round keeps every particle within a frame of its lifespan. */
  lemma RoundKeepsAged(s: seq<Particle>, rate: nat, rect: Rect, draws: seq<IconDraw>)
    requires |draws| == rate && AgedWithin(s)
    ensures AgedWithin(UpdateParticles(AddIconParticles(s, rate, rect, draws)))
  {
    EmittedAreAged(s, rate, rect, draws);
    UpdateKeepsAged(AddIconParticles(s, rate, rect, draws));
  }

  /** After a round with at least one emitted particle the store is not empty. */
  lemma RoundNonEmpty(s: seq<Particle>, rate: nat, rect: Rect, draws: seq<IconDraw>)
    requires |draws| == rate && rate >= 1
    ensures |UpdateParticles(AddIconParticles(s, rate, rect, draws))| >= 1
  {
    var a := AddIconParticles(s, rate, rect, draws);
    assert IconParticle(a[|a| - 1], rect, rate);
    UpdateKeepsLiveLast(a);
  }

  /**
   * Each round can grow the store by at most `rate`, and every particle in
   * it stays within one frame of its lifespan.
   */
  lemma {:induction false} SeedBounds(s: seq<Particle>, rate: nat, rect: Rect, rounds: seq<seq<IconDraw>>)
    requires RoundsFit(rounds, rate) && AgedWithin(s)
    ensures |Seed(s, rate, rect, rounds)| <= |s| + rate * |rounds|
    ensures AgedWithin(Seed(s, rate, rect, rounds))
    decreases |rounds|
  {
    if |rounds| > 0 {
      var u := UpdateParticles(AddIconParticles(s, rate, rect, rounds[0]));
      RoundKeepsAged(s, rate, rect, rounds[0]);
      RoundsFitTail(rounds, rate);
      SeedBounds(u, rate, rect, rounds[1..]);
      assert rate * |rounds| == rate + rate * |rounds[1..]|;
    }
  }

  /**
   * Once a round has run with `rate >= 1` the store is never empty: the
   * particle emitted last in a round is fresh, so it survives that round's
   * update.
   */
  lemma {:induction false} SeedNonEmpty(s: seq<Particle>, rate: nat, rect: Rect, rounds: seq<seq<IconDraw>>)
    requires RoundsFit(rounds, rate) && rate >= 1 && |rounds| >= 1
    ensures |Seed(s, rate, rect, rounds)| >= 1
    decreases |rounds|
  {
    var u := UpdateParticles(AddIconParticles(s, rate, rect, rounds[0]));
    RoundsFitTail(rounds, rate);
    if |rounds| == 1 {
      RoundNonEmpty(s, rate, rect, rounds[0]);
    } else {
      SeedNonEmpty(u, rate, rect, rounds[1..]);
    }
  }

  /**
   * `initIconParticles()` (js/demo.js:76-82): 100 emit-then-update rounds.
   * With at least one particle per round the store ends up non-empty, it
   * grows by at most `100 * rate`, and an aged store stays aged.
   */
  function InitIconParticles(s: seq<Particle>, rate: nat, rect: Rect, rounds: seq<seq<IconDraw>>): (r: seq<Particle>)
    requires |rounds| == InitialRounds && RoundsFit(rounds, rate)
    ensures rate >= 1 ==> 1 <= |r|
    ensures AgedWithin(s) ==> |r| <= |s| + InitialRounds * rate && AgedWithin(r)
  {
    var r := Seed(s, rate, rect, rounds);
    AgedBounds(s, rate, rect, rounds);
    if rate >= 1 then SeedNonEmpty(s, rate, rect, rounds); r else r
  }

  /** `SeedBounds` for an aged store, and nothing to prove otherwise. */
  lemma AgedBounds(s: seq<Particle>, rate: nat, rect: Rect, rounds: seq<seq<IconDraw>>)
    requires RoundsFit(rounds, rate)
    ensures AgedWithin(s) ==> |Seed(s, rate, rect, rounds)| <= |s| + rate * |rounds|
    ensures AgedWithin(s) ==> AgedWithin(Seed(s, rate, rect, rounds))
  {
    if AgedWithin(s) {
      SeedBounds(s, rate, rect, rounds);
    }
  }

}

=== FILE: particles.dfy ===
/**
 * The particle store of js/demo.js: the `particles` array, `createParticle`
 * and `updateParticles`.
 *
 * `updateParticles` removes a dead particle with `splice(i, 1)` inside a
 * `for` loop that still increments `i`, so the particle that slides into the
 * freed slot is not looked at in that pass. `Process` reproduces the loop
 * index by index; `Walk` describes the same pass structurally, one original
 * particle at a time, and `ProcessIsWalk` proves the two agree.
 */
module Particles {
  import opened Wrappers
  import opened Random

  /** One particle record as pushed by `createParticle`. */
  datatype Particle = Particle(x: real, y: real, vx: real, vy: real, life: nat, death: real, size: real)

  /**
   * The `options` object given to `createParticle`. `death` and `size` may be
   * left out, in which case a random default is used.
   */
  datatype Options = Options(x: real, y: real, vx: real, vy: real, death: Option<real>, size: Option<real>)

  /** The `Math.random()` values `createParticle` would draw for the defaults. */
  datatype Fallback = Fallback(death: Unit, size: Unit)

  /** Upper bound (exclusive) of a default lifespan: `Math.random() * 200`. */
  const DefaultDeathSpan: real := 200.0

  /**
   * JavaScript truthiness of an optional number: `o.death || default` keeps
   * the supplied value only when it is present and non-zero.
   */
  predicate Truthy(o: Option<real>) {
    o.Some? && o.value != 0.0
  }

  function DefaultDeath(u: Unit): real {
    u * DefaultDeathSpan
  }

  /** `Math.floor((Math.random() * 2) + 1)`. */
  function DefaultSize(u: Unit): (r: real)
    ensures r == 1.0 || r == 2.0
  {
    (u * 2.0 + 1.0).Floor as real
  }

  /** `createParticle(options)` (js/demo.js:17-28): push one fresh record. */
  function CreateParticle(s: seq<Particle>, o: Options, f: Fallback): (r: seq<Particle>)
    ensures |r| == |s| + 1 && r[..|s|] == s
    ensures r[|s|].x == o.x && r[|s|].y == o.y && r[|s|].vx == o.vx && r[|s|].vy == o.vy
    ensures r[|s|].life == 0
    ensures Truthy(o.death) ==> r[|s|].death == o.death.value
    ensures !Truthy(o.death) ==> 0.0 <= r[|s|].death < DefaultDeathSpan
    ensures Truthy(o.size) ==> r[|s|].size == o.size.value
    ensures !Truthy(o.size) ==> r[|s|].size == 1.0 || r[|s|].size == 2.0
  {
    var death := if Truthy(o.death) then o.death.value else DefaultDeath(f.death);
    var size := if Truthy(o.size) then o.size.value else DefaultSize(f.size);
    s + [Particle(o.x, o.y, o.vx, o.vy, 0, death, size)]
  }

  /** The removal test of js/demo.js:56: `life > death`. */
  predicate Dead(p: Particle) {
    p.life as real > p.death
  }

  /** One frame of motion and ageing (js/demo.js:59-61). */
  function Advance(p: Particle): Particle {
    p.(x := p.x + p.vx, y := p.y + p.vy, life := p.life + 1)
  }

  /**
   * The `for` loop of `updateParticles` from index `i` on, with `s` the array
   * as it stands at that point: a dead particle is spliced out and `i` still
   * moves on, a live one is advanced in place.
   */
  function Process(s: seq<Particle>, i: nat): seq<Particle>
    decreases if i <= |s| then |s| - i else 0
  {
    if i >= |s| then s
    else if Dead(s[i]) then Process(s[..i] + s[i + 1..], i + 1)
    else Process(s[i := Advance(s[i])], i + 1)
  }

  /**
   * The same pass described over the original array: `skip` is set right
   * after a removal, and the particle that follows is kept as it is.
   */
  function Walk(s: seq<Particle>, skip: bool): seq<Particle>
  {
    if |s| == 0 then []
    else if skip then [s[0]] + Walk(s[1..], false)
    else if Dead(s[0]) then Walk(s[1..], true)
    else [Advance(s[0])] + Walk(s[1..], false)
  }

  /**
   * `r` is `s` with some particles dropped and the others kept in their
   * order, each either untouched or advanced by one frame; only dead
   * particles are dropped and only live ones advanced.
   */
  ghost predicate Pruned(r: seq<Particle>, s: seq<Particle>)
    decreases |s|
  {
    if |s| == 0 then r == []
    else
      (Dead(s[0]) && Pruned(r, s[1..]))
      || (|r| > 0 && (r[0] == s[0] || (!Dead(s[0]) && r[0] == Advance(s[0]))) && Pruned(r[1..], s[1..]))
  }

  /** Every particle is at most one frame past its lifespan. */
  predicate AgedWithin(s: seq<Particle>) {
    forall k :: 0 <= k < |s| ==> s[k].life as real <= s[k].death + 1.0
  }

  /** Appending fresh particles with a non-negative lifespan keeps the store aged. */
  lemma ExtendAged(s: seq<Particle>, r: seq<Particle>)
    requires AgedWithin(s) && |r| >= |s| && r[..|s|] == s
    requires forall k :: |s| <= k < |r| ==> r[k].life == 0 && r[k].death >= 0.0
    ensures AgedWithin(r)
  {
  }

  /** The loop, started at `i = |p|`, leaves the prefix `p` alone and walks the rest. */
  lemma {:induction false} ProcessIsWalk(p: seq<Particle>, rest: seq<Particle>)
    ensures Process(p + rest, |p|) == p + Walk(rest, false)
    decreases |rest|
  {
    if |rest| == 0 {
      assert p + rest == p;
    } else if Dead(rest[0]) {
      assert (p + rest)[|p|] == rest[0];
      assert (p + rest)[..|p|] + (p + rest)[|p| + 1..] == p + rest[1..];
      if |rest| == 1 {
        assert p + rest[1..] == p;
      } else {
        var p' := p + [rest[1]];
        assert p + rest[1..] == p' + rest[2..];
        ProcessIsWalk(p', rest[2..]);
        assert rest[1..][1..] == rest[2..];
        assert Walk(rest, false) == [rest[1]] + Walk(rest[2..], false);
      }
    } else {
      assert (p + rest)[|p|] == rest[0];
      var p' := p + [Advance(rest[0])];
      assert (p + rest)[|p| := Advance(rest[0])] == p' + rest[1..];
      ProcessIsWalk(p', rest[1..]);
    }
  }

  lemma {:induction false} WalkPruned(s: seq<Particle>, skip: bool)
    ensures Pruned(Walk(s, skip), s)
    decreases |s|
  {
    if |s| > 0 {
      WalkPruned(s[1..], false);
      WalkPruned(s[1..], true);
      var w := Walk(s, skip);
      if skip || !Dead(s[0]) {
        assert w[1..] == Walk(s[1..], false);
      }
    }
  }

  lemma {:induction false} PrunedLength(r: seq<Particle>, s: seq<Particle>)
    requires Pruned(r, s)
    ensures |r| <= |s|
    decreases |s|
  {
    if |s| > 0 {
      if Dead(s[0]) && Pruned(r, s[1..]) {
        PrunedLength(r, s[1..]);
      } else {
        PrunedLength(r[1..], s[1..]);
      }
    }
  }

  lemma {:induction false} PrunedKeepsAged(r: seq<Particle>, s: seq<Particle>)
    requires Pruned(r, s) && AgedWithin(s)
    ensures AgedWithin(r)
    decreases |s|
  {
    if |s| > 0 {
      assert AgedWithin(s[1..]) by {
        forall k | 0 <= k < |s[1..]| ensures s[1..][k].life as real <= s[1..][k].death + 1.0 {
          assert s[1..][k] == s[k + 1];
        }
      }
      if Dead(s[0]) && Pruned(r, s[1..]) {
        PrunedKeepsAged(r, s[1..]);
      } else {
        PrunedKeepsAged(r[1..], s[1..]);
        forall k | 0 <= k < |r| ensures r[k].life as real <= r[k].death + 1.0 {
          if k > 0 {
            assert r[k] == r[1..][k - 1];
          }
        }
      }
    }
  }

  /**
   * `updateParticles()` (js/demo.js:54-64): one pass of the loop from index 0.
   * It never adds particles, keeps the survivors in order, removes only dead
   * particles and advances only live ones.
   */
  function UpdateParticles(s: seq<Particle>): (r: seq<Particle>)
    ensures Pruned(r, s)
    ensures |r| <= |s|
  {
    assert [] + s == s;
    ProcessIsWalk([], s);
    assert [] + Walk(s, false) == Walk(s, false);
    WalkPruned(s, false);
    PrunedLength(Process(s, 0), s);
    Process(s, 0)
  }

  /** No particle survives a pass more than one frame past its lifespan. */
  lemma UpdateKeepsAged(s: seq<Particle>)
    requires AgedWithin(s)
    ensures AgedWithin(UpdateParticles(s))
  {
    PrunedKeepsAged(UpdateParticles(s), s);
  }

  /** The whole pass is the structural walk over the original array. */
  lemma UpdateIsWalk(s: seq<Particle>)
    ensures UpdateParticles(s) == Walk(s, false)
  {
    assert [] + s == s;
    ProcessIsWalk([], s);
    assert [] + Walk(s, false) == Walk(s, false);
  }

  /** Safe on an empty store: nothing happens. */
  lemma UpdateEmpty()
    ensures UpdateParticles([]) == []
  {
  }

  function AdvanceAll(s: seq<Particle>): (r: seq<Particle>)
    ensures |r| == |s|
  {
    seq(|s|, k requires 0 <= k < |s| => Advance(s[k]))
  }

  lemma {:induction false} WalkAllLive(s: seq<Particle>)
    requires forall k :: 0 <= k < |s| ==> !Dead(s[k])
    ensures Walk(s, false) == AdvanceAll(s)
    decreases |s|
  {
    if |s| > 0 {
      assert !Dead(s[0]);
      WalkAllLive(s[1..]);
      assert AdvanceAll(s) == [Advance(s[0])] + AdvanceAll(s[1..]);
    }
  }

  /** With no dead particle every particle is advanced and none is removed. */
  lemma UpdateAllLive(s: seq<Particle>)
    requires forall k :: 0 <= k < |s| ==> !Dead(s[k])
    ensures UpdateParticles(s) == AdvanceAll(s)
    ensures |UpdateParticles(s)| == |s|
  {
    UpdateIsWalk(s);
    WalkAllLive(s);
  }

  /**
   * The splice-in-loop quirk: when the first particle is removed, the second
   * one moves into slot 0 while the loop moves on to slot 1, so it survives
   * the pass unchanged, dead or not, and the pass resumes with the third.
   */
  lemma SuccessorOfRemovedIsSkipped(s: seq<Particle>)
    requires |s| >= 2 && Dead(s[0])
    ensures UpdateParticles(s) == [s[1]] + UpdateParticles(s[2..])
  {
    UpdateIsWalk(s);
    UpdateIsWalk(s[2..]);
    assert s[1..][1..] == s[2..];
  }

  /** Concretely: of two dead particles, the second one outlives the pass. */
  lemma DeadParticleCanSurvive(a: Particle, b: Particle)
    requires Dead(a) && Dead(b)
    ensures UpdateParticles([a, b]) == [b]
    ensures Dead(UpdateParticles([a, b])[0])
  {
    SuccessorOfRemovedIsSkipped([a, b]);
    assert [a, b][2..] == [];
  }

  /** A particle that is not dead at the end of the array is never lost. */
  lemma {:induction false} WalkKeepsLiveLast(s: seq<Particle>, skip: bool)
    requires |s| > 0 && !Dead(s[|s| - 1])
    ensures |Walk(s, skip)| > 0
    ensures Walk(s, skip)[|Walk(s, skip)| - 1] in {s[|s| - 1], Advance(s[|s| - 1])}
    decreases |s|
  {
    if |s| > 1 {
      assert s[1..][|s[1..]| - 1] == s[|s| - 1];
      WalkKeepsLiveLast(s[1..], false);
      WalkKeepsLiveLast(s[1..], true);
    }
  }

  /** Appending a particle that is not dead leaves a non-empty store after a pass. */
  lemma UpdateKeepsLiveLast(s: seq<Particle>)
    requires |s| > 0 && !Dead(s[|s| - 1])
    ensures |UpdateParticles(s)| > 0
  {
    UpdateIsWalk(s);
    WalkKeepsLiveLast(s, false);
  }

}

=== FILE: random.dfy ===
/**
 * Randomness enters the widget only through `Math.random`. The model never
 * draws: every random value is handed in by the caller as a `Unit`, a real in
 * the half-open interval [0, 1) that `Math.random` promises.
 */
module Random {

  /** A value `Math.random()` may return. */
  type Unit = r: real | 0.0 <= r < 1.0

  function Abs(v: real): real {
    if v < 0.0 then -v else v
  }

  /**
   * The `rand(value)` helper (js/demo.js:267-269): `Math.random() * value - value / 2`,
   * a value spread around zero by at most half of `value` either way.
   */
  function Rand(u: Unit, v: real): (r: real)
    ensures -Abs(v) / 2.0 <= r <= Abs(v) / 2.0
    ensures v > 0.0 ==> r < v / 2.0
  {
    u * v - v / 2.0
  }

}

=== FILE: widget.dfy ===
/**
 * The upload widget's session state and its event handlers (js/demo.js),
 * each handler a pure transition on an immutable `Session` record.
 *
 * Timers, animation frames and tween callbacks are data: a pending travel
 * tween is a `Travel` in `travels`, a pending hide timeout a delay in
 * `hideTimers`, and their firing is an `Event` the environment may deliver
 * in any order.
 */
module Widget {
  import opened Particles
  import opened Emitter
  import opened Drop

  /** Which tween the `iconAnimation` variable refers to. */
  datatype Handle = Bob | LaunchTween

  /** The state of the launch tween started by `uploadIconAnimation`. */
  datatype Launch = NoLaunch | Launching | LaunchPaused

  datatype Session = Session(
    active: bool,                // the `upload--active` class on the form
    animatingUpload: bool,
    playing: bool,               // `playingIconAnimation`; a frame is scheduled exactly when set
    iconParticlesCount: nat,
    particles: seq<Particle>,
    handle: Handle,
    launch: Launch,
    travels: seq<Travel>,        // travel tweens that have not completed
    hideTimers: seq<nat>)        // hide timeouts that have not fired

  /** Inputs of a reset: the icon's box and the draws for 100 one-particle rounds. */
  datatype Reseed = Reseed(rect: Rect, rounds: seq<seq<IconDraw>>)

  predicate ReseedFits(o: Reseed) {
    |o.rounds| == InitialRounds && RoundsFit(o.rounds, 1)
  }

  datatype Event =
    | DragShow                   // `dragover` or `dragenter`
    | DragHide                   // `dragleave` or `dragend`
    | DropFiles(files: nat, pageX: real, pageY: real, jitter: seq<Jitter>, burst: seq<SprayDraw>)
    | Frame(rect: Rect, icon: seq<IconDraw>)
    | TrailTick(travel: nat, x: real, y: real, spray: seq<SprayDraw>)
    | TravelDone(travel: nat)
    | LaunchDone(reseed: Reseed)
    | HideDone(timer: nat)
    | Resize(reseed: Reseed)

  /**
   * The state right after the script has loaded (js/demo.js:10-13, 83, 97):
   * hidden, idle, one particle per frame, the store pre-seeded.
   */
  function Initial(o: Reseed): (r: Session)
    requires ReseedFits(o)
    ensures !r.active && !r.animatingUpload && !r.playing && r.iconParticlesCount == 1
    ensures 1 <= |r.particles| <= InitialRounds && AgedWithin(r.particles)
    ensures r.handle == Bob && r.launch == NoLaunch && r.travels == [] && r.hideTimers == []
    ensures r.particles == InitIconParticles([], 1, o.rect, o.rounds)
  {
    Session(false, false, false, 1, InitIconParticles([], 1, o.rect, o.rounds), Bob, NoLaunch, [], [])
  }

  /** `playIconAnimation()` (js/demo.js:100-106): `iconAnimation.play()` resumes a paused launch. */
  function Play(s: Session): (r: Session)
    ensures r.playing
    ensures s.playing ==> r == s
    ensures r.(playing := s.playing, launch := s.launch) == s
    ensures r.launch == Launching <==> s.launch == Launching || (!s.playing && s.handle == LaunchTween && s.launch == LaunchPaused)
    ensures r.launch != s.launch ==> !s.playing && s.handle == LaunchTween && s.launch == LaunchPaused && r.launch == Launching
  {
    if s.playing then s
    else
      var launch := if s.handle == LaunchTween && s.launch == LaunchPaused then Launching else s.launch;
      s.(playing := true, launch := launch)
  }

  /** `pauseIconAnimation()` (js/demo.js:109-115): `iconAnimation.pause()` may pause the launch. */
  function Pause(s: Session): (r: Session)
    ensures !r.playing
    ensures !s.playing ==> r == s
    ensures r.(playing := s.playing, launch := s.launch) == s
    ensures r.launch == LaunchPaused <==> s.launch == LaunchPaused || (s.playing && s.handle == LaunchTween && s.launch == Launching)
    ensures r.launch != s.launch ==> s.playing && s.handle == LaunchTween && s.launch == Launching && r.launch == LaunchPaused
  {
    if !s.playing then s
    else
      var launch := if s.handle == LaunchTween && s.launch == Launching then LaunchPaused else s.launch;
      s.(playing := false, launch := launch)
  }

  /** The `dragover`/`dragenter` handler (js/demo.js:208-215). */
  function DragShowHandler(s: Session): (r: Session)
    ensures s.animatingUpload ==> r == s
    ensures !s.animatingUpload ==> r.active && r.playing
    ensures r.particles == s.particles && r.iconParticlesCount == s.iconParticlesCount
    ensures r.(active := s.active, playing := s.playing, launch := s.launch) == s
    ensures r.launch != s.launch ==> !s.playing && s.handle == LaunchTween && s.launch == LaunchPaused && r.launch == Launching
  {
    if s.animatingUpload then s else Play(s.(active := true))
  }

  /** The `dragleave`/`dragend` handler (js/demo.js:218-225). */
  function DragHideHandler(s: Session): (r: Session)
    ensures s.animatingUpload ==> r == s
    ensures !s.animatingUpload ==> !r.active && !r.playing
    ensures r.particles == s.particles && r.iconParticlesCount == s.iconParticlesCount
    ensures r.(active := s.active, playing := s.playing, launch := s.launch) == s
    ensures r.launch != s.launch ==> s.playing && s.handle == LaunchTween && s.launch == Launching && r.launch == LaunchPaused
  {
    if s.animatingUpload then s else Pause(s.(active := false))
  }

  /** Draws the drop handler may use: one jitter per slot and one burst. */
  predicate DropDrawsFit(jitter: seq<Jitter>, burst: seq<SprayDraw>) {
    |jitter| == MaxAnimatedFiles && |burst| == BurstSize
  }

  /**
   * The `drop` handler (js/demo.js:228-256). Ignored while an upload is
   * animating. No files: hide and pause. Otherwise up to three staggered
   * travels, a 20-particle burst at the drop point, and a hide timeout.
   */
  function DropHandler(s: Session, files: nat, x: real, y: real, jitter: seq<Jitter>, burst: seq<SprayDraw>): (r: Session)
    requires DropDrawsFit(jitter, burst)
    ensures s.animatingUpload ==> r == s
    ensures !s.animatingUpload && files == 0 ==>
      && !r.animatingUpload && !r.active && !r.playing
      && r.particles == s.particles && r.iconParticlesCount == s.iconParticlesCount
      && r.travels == s.travels && r.hideTimers == s.hideTimers
      && r.handle == s.handle
    ensures !s.animatingUpload && files == 0 ==>
      (r.launch == LaunchPaused <==>
         s.launch == LaunchPaused || (s.playing && s.handle == LaunchTween && s.launch == Launching))
    ensures !s.animatingUpload && files == 0 && r.launch != s.launch ==>
      s.playing && s.handle == LaunchTween && s.launch == Launching && r.launch == LaunchPaused
    ensures !s.animatingUpload && files > 0 ==>
      var n := AnimatedFiles(files);
      && r.animatingUpload
      && r.active == s.active && r.playing == s.playing && r.launch == s.launch && r.handle == s.handle
      && r.iconParticlesCount == s.iconParticlesCount
      && |r.travels| == |s.travels| + n && r.travels[..|s.travels|] == s.travels
      && (forall k :: |s.travels| <= k < |r.travels| ==>
            r.travels[k].delay == StaggerStep * (|s.travels| + n - 1 - k) && NearDrop(r.travels[k], x, y))
      && r.travels[|r.travels| - 1] == Travel(x, y, 0)
      && |r.particles| == |s.particles| + BurstSize && r.particles[..|s.particles|] == s.particles
      && (forall k :: |s.particles| <= k < |r.particles| ==> SprayParticle(r.particles[k], x, y))
      && r.hideTimers == s.hideTimers + [HideDelay(n)]
  {
    if s.animatingUpload then s
    else
      var n := AnimatedFiles(files);
      if n == 0 then Pause(s.(active := false))
      else
        var st := Stagger(s.particles, s.travels, x, y, n, jitter, burst);
        s.(animatingUpload := true, particles := st.0, travels := st.1,
           hideTimers := s.hideTimers + [HideDelay(n)])
  }

  /** One run of `loop()` (js/demo.js:31-36): emit at the icon, then update. */
  function FrameHandler(s: Session, rect: Rect, draws: seq<IconDraw>): (r: Session)
    requires |draws| == s.iconParticlesCount
    ensures Pruned(r.particles, AddIconParticles(s.particles, s.iconParticlesCount, rect, draws))
    ensures |r.particles| <= |s.particles| + s.iconParticlesCount
    ensures r.(particles := s.particles) == s
  {
    var emitted := AddIconParticles(s.particles, s.iconParticlesCount, rect, draws);
    s.(particles := UpdateParticles(emitted))
  }

  /** One tick of a travel tween's `run` callback at the tween's current point. */
  function TrailHandler(s: Session, x: real, y: real, draws: seq<SprayDraw>): (r: Session)
    requires |draws| == TrailSize
    ensures |r.particles| == |s.particles| + TrailSize && r.particles[..|s.particles|] == s.particles
    ensures forall k :: |s.particles| <= k < |r.particles| ==> SprayParticle(r.particles[k], x, y)
    ensures r.(particles := s.particles) == s
  {
    s.(particles := TrailParticles(s.particles, x, y, draws))
  }

  /**
   * `uploadIconAnimation()` (js/demo.js:158-179): two more particles per
   * frame; `anime.remove` drops the previous icon tweens and a fresh launch
   * tween becomes `iconAnimation`.
   */
  function UploadIconAnimation(s: Session): (r: Session)
    ensures r.iconParticlesCount == s.iconParticlesCount + 2
    ensures r.handle == LaunchTween && r.launch == Launching
    ensures r.(iconParticlesCount := s.iconParticlesCount, handle := s.handle, launch := s.launch) == s
  {
    s.(iconParticlesCount := s.iconParticlesCount + 2, handle := LaunchTween, launch := Launching)
  }

  /** Travel tween `k` completes; its `complete` is `uploadIconAnimation` (js/demo.js:153). */
  function TravelDoneHandler(s: Session, k: nat): (r: Session)
    requires k < |s.travels|
    ensures r.travels == s.travels[..k] + s.travels[k + 1..]
    ensures r.iconParticlesCount == s.iconParticlesCount + 2
    ensures r.handle == LaunchTween && r.launch == Launching
    ensures r.(iconParticlesCount := s.iconParticlesCount, handle := s.handle, launch := s.launch, travels := s.travels) == s
  {
    UploadIconAnimation(s.(travels := s.travels[..k] + s.travels[k + 1..]))
  }

  /**
   * `resetAll()` (js/demo.js:182-197). It pauses through `iconAnimation`, so a
   * running launch tween is paused and then forgotten when the handle is
   * replaced; it leaves travel tweens and hide timeouts pending.
   */
  function ResetAll(s: Session, o: Reseed): (r: Session)
    requires ReseedFits(o)
    ensures !r.animatingUpload && !r.playing && r.iconParticlesCount == 1
    ensures r.particles == InitIconParticles([], 1, o.rect, o.rounds)
    ensures 1 <= |r.particles| <= InitialRounds
    ensures r.handle == Bob && r.launch != LaunchPaused
    ensures r.launch == Launching <==> s.launch == Launching && !(s.playing && s.handle == LaunchTween)
    ensures r.active == s.active && r.travels == s.travels && r.hideTimers == s.hideTimers
  {
    var paused := Pause(s.(animatingUpload := false));
    paused.(particles := InitIconParticles([], 1, o.rect, o.rounds),
            iconParticlesCount := 1,
            handle := Bob,
            launch := if paused.launch == LaunchPaused then NoLaunch else paused.launch)
  }

  /** The launch tween completes and `resetAll` runs (js/demo.js:174-177). */
  function LaunchDoneHandler(s: Session, o: Reseed): (r: Session)
    requires ReseedFits(o)
    ensures !r.animatingUpload && !r.playing && r.iconParticlesCount == 1
    ensures r.launch == NoLaunch
    ensures r.particles == InitIconParticles([], 1, o.rect, o.rounds) && r.handle == Bob
    ensures r.active == s.active && r.travels == s.travels && r.hideTimers == s.hideTimers
  {
    ResetAll(s.(launch := NoLaunch), o)
  }

  /** A hide timeout fires (js/demo.js:243-245). */
  function HideDoneHandler(s: Session, k: nat): (r: Session)
    requires k < |s.hideTimers|
    ensures !r.active && r.hideTimers == s.hideTimers[..k] + s.hideTimers[k + 1..]
    ensures r.(active := s.active, hideTimers := s.hideTimers) == s
  {
    s.(active := false, hideTimers := s.hideTimers[..k] + s.hideTimers[k + 1..])
  }

  /** The `resize` handler (js/demo.js:259-264): hide, then reset. */
  function ResizeHandler(s: Session, o: Reseed): (r: Session)
    requires ReseedFits(o)
    ensures !r.active && !r.animatingUpload && !r.playing && r.iconParticlesCount == 1
    ensures r == ResetAll(s, o).(active := false)
  {
    ResetAll(s.(active := false), o)
  }

  /** Whether `e` can be delivered in state `s`, with the draws it needs. */
  predicate Supplied(s: Session, e: Event) {
    match e
    case DragShow => true
    case DragHide => true
    case DropFiles(_, _, _, jitter, burst) => DropDrawsFit(jitter, burst)
    case Frame(_, draws) => s.playing && |draws| == s.iconParticlesCount
    case TrailTick(k, _, _, draws) => k < |s.travels| && |draws| == TrailSize
    case TravelDone(k) => k < |s.travels|
    case LaunchDone(o) => s.launch == Launching && ReseedFits(o)
    case HideDone(k) => k < |s.hideTimers|
    case Resize(o) => ReseedFits(o)
  }

  /** The drag and drop events, which are ignored while an upload is animating. */
  predicate DragOrDrop(e: Event) {
    e.DragShow? || e.DragHide? || e.DropFiles?
  }

  predicate Resets(e: Event) {
    e.LaunchDone? || e.Resize?
  }

  function Step(s: Session, e: Event): (r: Session)
    requires Supplied(s, e)
    ensures r.iconParticlesCount ==
      if e.TravelDone? then s.iconParticlesCount + 2
      else if Resets(e) then 1
      else s.iconParticlesCount
    ensures s.animatingUpload && DragOrDrop(e) ==> r == s
  {
    match e
    case DragShow => DragShowHandler(s)
    case DragHide => DragHideHandler(s)
    case DropFiles(files, x, y, jitter, burst) => DropHandler(s, files, x, y, jitter, burst)
    case Frame(rect, draws) => FrameHandler(s, rect, draws)
    case TrailTick(_, x, y, draws) => TrailHandler(s, x, y, draws)
    case TravelDone(k) => TravelDoneHandler(s, k)
    case LaunchDone(o) => LaunchDoneHandler(s, o)
    case HideDone(k) => HideDoneHandler(s, k)
    case Resize(o) => ResizeHandler(s, o)
  }

  predicate Runnable(s: Session, es: seq<Event>)
    decreases |es|
  {
    |es| == 0 || (Supplied(s, es[0]) && Runnable(Step(s, es[0]), es[1..]))
  }

  function Run(s: Session, es: seq<Event>): Session
    requires Runnable(s, es)
    decreases |es|
  {
    if |es| == 0 then s else Run(Step(s, es[0]), es[1..])
  }

  /** Calling either guard twice is the same as calling it once. */
  lemma PlayPauseIdempotent(s: Session)
    ensures Play(Play(s)) == Play(s)
    ensures Pause(Pause(s)) == Pause(s)
  {
  }

  /**
   * Pausing undoes playing and playing undoes pausing, unless the launch
   * tween behind the handle was left running while paused or left paused
   * while playing.
   */
  lemma PlayPauseRoundTrip(s: Session)
    ensures !s.playing && !(s.handle == LaunchTween && s.launch == Launching) ==> Pause(Play(s)) == s
    ensures s.playing && !(s.handle == LaunchTween && s.launch == LaunchPaused) ==> Play(Pause(s)) == s
  {
  }

  /**
   * What every reachable state satisfies: the particle rate is odd (it starts
   * at 1 and moves in steps of 2), no stored particle is more than a frame
   * past its lifespan, and a paused launch is the one the handle refers to,
   * with the animation not playing.
   */
  ghost predicate Inv(s: Session) {
    && s.iconParticlesCount % 2 == 1
    && AgedWithin(s.particles)
    && (s.launch == LaunchPaused ==> s.handle == LaunchTween && !s.playing)
  }

  lemma InitialInv(o: Reseed)
    requires ReseedFits(o)
    ensures Inv(Initial(o))
  {
  }

  lemma ResetInv(s: Session, o: Reseed)
    requires ReseedFits(o)
    ensures Inv(ResetAll(s, o))
  {
  }

  /** A frame emits fresh icon particles and runs the update pass, which keeps the store aged. */
  lemma FrameKeepsInv(s: Session, rect: Rect, draws: seq<IconDraw>)
    requires Inv(s) && |draws| == s.iconParticlesCount
    ensures Inv(FrameHandler(s, rect, draws))
  {
    RoundKeepsAged(s.particles, s.iconParticlesCount, rect, draws);
  }

  /** A drop only appends fresh burst particles and changes the launch state only by pausing. */
  lemma DropKeepsInv(s: Session, files: nat, x: real, y: real, jitter: seq<Jitter>, burst: seq<SprayDraw>)
    requires Inv(s) && DropDrawsFit(jitter, burst)
    ensures Inv(DropHandler(s, files, x, y, jitter, burst))
  {
    var r := DropHandler(s, files, x, y, jitter, burst);
    if !s.animatingUpload && files > 0 {
      ExtendAged(s.particles, r.particles);
    }
  }

  /** A travel tick only appends fresh particles living 60 frames. */
  lemma TrailKeepsInv(s: Session, x: real, y: real, draws: seq<SprayDraw>)
    requires Inv(s) && |draws| == TrailSize
    ensures Inv(TrailHandler(s, x, y, draws))
  {
  }

  lemma StepKeepsInv(s: Session, e: Event)
    requires Inv(s) && Supplied(s, e)
    ensures Inv(Step(s, e))
  {
    match e
    case DropFiles(files, x, y, jitter, burst) =>
      DropKeepsInv(s, files, x, y, jitter, burst);
    case Frame(rect, draws) =>
      FrameKeepsInv(s, rect, draws);
    case TrailTick(_, x, y, draws) =>
      TrailKeepsInv(s, x, y, draws);
    case LaunchDone(o) =>
      ResetInv(s.(launch := NoLaunch), o);
    case Resize(o) =>
      ResetInv(s.(active := false), o);
    case _ =>
  }

  /** Every state reached by a run of deliverable events keeps the invariant. */
  lemma {:induction false} RunKeepsInv(s: Session, es: seq<Event>)
    requires Inv(s) && Runnable(s, es)
    ensures Inv(Run(s, es))
    decreases |es|
  {
    if |es| > 0 {
      StepKeepsInv(s, es[0]);
      RunKeepsInv(Step(s, es[0]), es[1..]);
    }
  }

  /** How many travel completions a run delivers. */
  function Completions(es: seq<Event>): (n: nat)
    ensures n <= |es|
  {
    if |es| == 0 then 0 else (if es[0].TravelDone? then 1 else 0) + Completions(es[1..])
  }

  /**
   * Between resets the particle rate grows by exactly 2 per completed travel
   * tween, whichever travel it was and whatever else happens meanwhile.
   */
  lemma {:induction false} RunCounter(s: Session, es: seq<Event>)
    requires Runnable(s, es)
    requires forall k :: 0 <= k < |es| ==> !Resets(es[k])
    ensures Run(s, es).iconParticlesCount == s.iconParticlesCount + 2 * Completions(es)
    decreases |es|
  {
    if |es| > 0 {
      RunCounter(Step(s, es[0]), es[1..]);
    }
  }

  function Repeat(e: Event, m: nat): (r: seq<Event>)
    ensures |r| == m && forall k :: 0 <= k < m ==> r[k] == e
  {
    if m == 0 then [] else [e] + Repeat(e, m - 1)
  }

  /**
   * Completing the `m` travels that start at index `i`, one after another,
   * can always be delivered, removes exactly those travels, and raises the
   * particle rate by `2 * m`.
   */
  lemma {:induction false} CompleteTravels(s: Session, i: nat, m: nat)
    requires i + m <= |s.travels|
    ensures Runnable(s, Repeat(TravelDone(i), m))
    ensures Run(s, Repeat(TravelDone(i), m)).travels == s.travels[..i] + s.travels[i + m..]
    ensures Run(s, Repeat(TravelDone(i), m)).iconParticlesCount == s.iconParticlesCount + 2 * m
    decreases m
  {
    if m == 0 {
      assert s.travels[..i] + s.travels[i..] == s.travels;
    } else {
      var es := Repeat(TravelDone(i), m);
      assert es[1..] == Repeat(TravelDone(i), m - 1);
      var s' := Step(s, TravelDone(i));
      assert s'.travels == s.travels[..i] + s.travels[i + 1..];
      CompleteTravels(s', i, m - 1);
      assert s'.travels[..i] == s.travels[..i];
      assert s'.travels[i + (m - 1)..] == s.travels[i + m..];
    }
  }

  /**
   * Dropping files on an idle widget and letting every travel it scheduled
   * complete raises the particle rate by 2 per animated file (at most 3),
   * and leaves no travel of that drop pending.
   */
  lemma DropRaisesCounter(s: Session, files: nat, x: real, y: real, jitter: seq<Jitter>, burst: seq<SprayDraw>)
    requires !s.animatingUpload && files > 0 && DropDrawsFit(jitter, burst)
    ensures
      var n := AnimatedFiles(files);
      var es := [DropFiles(files, x, y, jitter, burst)] + Repeat(TravelDone(|s.travels|), n);
      && Runnable(s, es)
      && Run(s, es).iconParticlesCount == s.iconParticlesCount + 2 * n
      && Run(s, es).travels == s.travels
  {
    var n := AnimatedFiles(files);
    var d := DropFiles(files, x, y, jitter, burst);
    var es := [d] + Repeat(TravelDone(|s.travels|), n);
    var s' := Step(s, d);
    assert es[1..] == Repeat(TravelDone(|s.travels|), n);
    CompleteTravels(s', |s.travels|, n);
    assert s'.travels[..|s.travels|] + s'.travels[|s.travels| + n..] == s.travels;
  }

  /** A reset with the load-time draws restores the state right after loading. */
  lemma ResetRestoresInitial(o: Reseed)
    requires ReseedFits(o)
    ensures ResetAll(Initial(o), o) == Initial(o)
  {
  }

  /** A second reset with the same inputs changes nothing. */
  lemma ResetIdempotent(s: Session, o: Reseed)
    requires ReseedFits(o)
    ensures ResetAll(ResetAll(s, o), o) == ResetAll(s, o)
  {
  }

  /**
   * Mutual exclusion: however many drag and drop events arrive while an
   * upload is animating, the session, its particles and its rate included,
   * is left exactly as it was.
   */
  lemma {:induction false} IgnoredWhileAnimating(s: Session, es: seq<Event>)
    requires s.animatingUpload && Runnable(s, es)
    requires forall k :: 0 <= k < |es| ==> DragOrDrop(es[k])
    ensures Run(s, es) == s
    decreases |es|
  {
    if |es| > 0 {
      assert Step(s, es[0]) == s;
      IgnoredWhileAnimating(s, es[1..]);
    }
  }

}

=== FILE: wrappers.dfy ===
/** An optional value: the model of a JavaScript property that may be absent. */
module Wrappers {

  datatype Option<+T> = None | Some(value: T)

}
